=== FILE: README.md ===
# LifeGroup finder: the decision core in Dafny

This project models the pure decisions inside `app.py`, a Streamlit page for finding a
LifeGroup (a small church group) and asking to join it. The page has three parts. A visitor
types a name, a WhatsApp number and an address. The page geocodes the address. It then filters
the group catalog by public ("Tipo de Life"), weekday and mode. Online groups are listed apart
from in-person groups, and in-person groups are ranked by distance. A "Quero Participar" button
posts the sign-up to a webhook.

The model covers:

- **Phone normalisation** (`Phone`): `extrair_zap`. It deletes `-`, `(`, `)` and spaces. It
  then finds the leftmost greedy match of `\d{10,13}`. It puts the Brazilian prefix "55" in
  front unless the match already starts with it. `PhoneExamples` works through concrete inputs.
- **Address label** (`Address`): `limpar_endereco_visual`. It builds "road, number, suburb -
  city" from the geocoder's fields and looks keys up with `dict.get` semantics. It falls back
  to the first two comma pieces of the raw address. `obter_lat_lon_usuario` tries the query
  "…, São Paulo, Brasil" and then "…, Brasil".
- **Catalog loading** (`Catalog`): the row-retention rule of `carregar_dados`. Rows without a
  name are dropped. Rows whose address is not a non-blank string, or that the geocoder cannot
  place, are also dropped.
- **Search** (`Search`): the submit handler. It checks the three text fields, then the empty
  catalog, then the address. It filters with `isin` on three columns. It splits groups on a
  case-insensitive "online" in the mode. It sorts in-person groups by an abstract distance.
- **Notification** (`Notify`): the leader phone a card uses in test mode and outside it, what
  pressing "Quero Participar" leads to, and how `enviar_para_webhook` turns the webhook's
  response into `(ok, info)`.

`Text`, `Seqs` and `Wrappers` hold the shared helpers: Python's `split`/`join`, `lower`,
`strip() == ""`, `f"{n}"`, a boolean-mask selection, a sort by key, and `Option`.

External collaborators are parameters. The geocoder is a function from query text to an
`Answer`: a `Place`, no place, or a failure (an exception such as a timeout). The two are
kept apart because `obter_lat_lon_usuario` retries only after an empty answer and gives up
after a failure. The geodesic distance is a
function of two coordinates. The HTTP POST is a function from URL and payload to an
`HttpOutcome`.

Three behaviours of the code that may look unintended, which the model keeps:

- An online group whose address cannot be geocoded is dropped from the catalog, like any
  other row (app.py:144). `Catalog.OnlineRowWithoutAddressIsDropped` states this.
- The in-person sort is pandas' default quicksort, which is not stable. The model promises only
  "sorted by distance and a permutation", never an order among equal distances.
- `extrair_zap` returns None for an empty string only because "" contains no ten-digit run.
  There is no separate emptiness test.

## Model

| member | source | states |
|---|---|---|
| `Phone.Clean` | app.py:58 | the cleaned text contains none of `-`, `(`, `)` or space |
| `Phone.CleanConcat` | app.py:58 | cleaning works piece by piece, so every other character keeps its order |
| `Phone.CleanKeepsOtherText` | app.py:58 | text without the four characters, `+` and `.` included, is left untouched |
| `Phone.CleanErasesSeparators` | app.py:58 | text made only of the four characters disappears |
| `Phone.DigitRun` | app.py:59 | the counted characters are digits and the run stops at the end of the text or at a non-digit |
| `Phone.FirstMatchFrom` | app.py:59 | the scan returns the first position from `i` where ten digits begin, or None when there is none at or after `i` |
| `Phone.Search` | app.py:59 | `re.search(r'\d{10,13}')` returns None exactly when no ten digits in a row occur; otherwise a span that is the leftmost, greedy 10–13 digit match |
| `Phone.RegexMatchIsUnique` | app.py:59 | at most one span is leftmost and greedy, so the declarative match description pins the search result down |
| `Phone.ExtrairZap` | app.py:56-63 | a missing cell gives None; a present cell gives None exactly when its cleaned text has no ten-digit run; any result is all digits, starts with "55" and has 10 to 15 characters |
| `Phone.ExtrairZapReturnsPrefixedMatch` | app.py:58-62 | the result is the leftmost greedy match itself when it starts with "55", and "55" followed by the match otherwise |
| `Phone.CleanNumberIsKeptWhole` | app.py:58-62 | when the cleaned text is itself a 10–13 digit number, the result is that whole number, with "55" in front unless it already starts with it |
| `Phone.NormalizedNumberIsFixedPoint` | app.py:62 | a 10–13 digit string that starts with "55" comes back unchanged |
| `PhoneExamples.FormattedNumberGainsCountryPrefix` | app.py:56-63 | "(19) 99207-1423" becomes "5519992071423" |
| `PhoneExamples.LettersHaveNoNumber` | app.py:59-63 | "abc" gives None |
| `PhoneExamples.PlusSignPrecedesTheRun` | app.py:58-62 | "+55 19992071423" keeps its `+`, and the match starts after it, giving "5519992071423" |
| `PhoneExamples.DotsBreakTheDigitRun` | app.py:58-63 | "19.99207.1423" keeps its dots, and no run reaches ten digits, so the result is None |
| `PhoneExamples.ThirteenDigitsGainPrefix` | app.py:59-62 | a 13-digit number not starting with "55" comes back 15 digits long |
| `PhoneExamples.LongNumberIsCut` | app.py:59-62 | a digit string longer than 13 that starts with "55" is cut to its first 13 digits |
| `PhoneExamples.FifteenDigitResultIsNotAFixedPoint` | app.py:59-62 | a 13-digit number without "55" becomes 15 digits, and extracting that again keeps only its first 13 |
| `Text.Split` | app.py:89 | `str.split(',')` yields at least one piece, no piece holds a comma, and there are two or more pieces exactly when the text has a comma |
| `Text.JoinSplit` | app.py:89 | joining the pieces back with the comma restores the raw address |
| `Text.SplitAfterSeparator` | app.py:89-91 | the first piece is the text before the first comma, and the rest comes from splitting what follows |
| `Address.Suburb` | app.py:74 | the `suburb` entry when that key is present; otherwise the `neighbourhood` entry; otherwise "" |
| `Address.City` | app.py:75 | the first of `city`, `town`, `municipality` whose key is present, or "" when none is |
| `Address.FilledParts` | app.py:77-80 | after a present road, the kept parts are the road, then the number and the suburb that are not empty, in that order |
| `Address.FilledPartsJoin` | app.py:77-82 | joining those parts puts ", " before the number and before the suburb, each only when present |
| `Address.Composed` | app.py:77-86 | the composed text begins with the road when there is one, and ends with " - city" when there is a city |
| `Address.NeedsFallback` | app.py:88 | a missing road always forces the fallback; a road together with a city never does, since "road - city" has at least five characters |
| `Address.RawFallback` | app.py:89-92 | a raw address without a comma is returned whole; with a comma the result is the first two comma pieces joined by ", " |
| `Address.Label` | app.py:65-94 | a usable composed label starts with the road and has at least five characters; with a city it ends with " - city"; when the fallback applies to a raw address without a comma, the label is the whole raw address |
| `Address.FallbackTakesFirstTwoPieces` | app.py:88-91 | with no road or a label under five characters, the raw address "a,b…" gives "a, b", each piece keeping its own spaces |
| `Address.RawFallbackTakesFirstTwoPieces` | app.py:89-91 | a raw address "a,b…" with no comma inside `a` or `b` gives "a, b" |
| `Address.ComposedLabelReadsFieldByField` | app.py:72-94 | a usable composed label is the road, then ", number" and ", suburb" for those present, then " - city" exactly when there is a city, and nothing else |
| `Address.FullAddressLabel` | app.py:72-86 | worked example, the special case of `ComposedLabelReadsFieldByField` with all four fields present: the label reads "road, number, suburb - city" |
| `Address.SuburbKeyHidesNeighbourhood` | app.py:74 | a present `suburb` key, even an empty one, makes `neighbourhood` irrelevant |
| `Address.CityKeyHidesTownAndMunicipality` | app.py:75 | a present `city` key, even an empty one, makes `town` and `municipality` irrelevant |
| `Address.OtherFieldsDoNotMatter` | app.py:71-75 | fields other than the seven the function reads never change the label |
| `Address.Describe` | app.py:155-156 | the visitor's coordinate is the place's, and the reference label is the place's display label: it starts with the road when the composed label is usable, and is the whole raw address when the fallback applies to one without a comma |
| `Address.ResolveVisitor` | app.py:149-159 | the first query is the address followed by ", São Paulo, Brasil" and the retry the address followed by ", Brasil"; a result exactly when the São Paulo query finds a place, or finds none and the "Brasil" query finds one; the São Paulo place wins; a failure of the first query ends the lookup with None, without the retry |
| `Address.FailedFirstQueryIsNotRetried` | app.py:151-159 | after the first query raises, the answer to the second query makes no difference: the result is None |
| `Catalog.Enrich` | app.py:125-141 | a row becomes a group exactly when it has a name and a non-blank string address that the geocoder places for "<address>, Brasil"; a failed call drops the row like an empty answer; the group keeps the row's name, type, day, mode, start time, leader, phone, neighbourhood and address, and takes that coordinate |
| `Catalog.LoadCatalog` | app.py:124-144 | every loaded group has a non-blank address and exactly the coordinate the geocoder gave for it, and the catalog is no longer than the file |
| `Catalog.LoadCatalogConcat` | app.py:129-144 | loading works row by row, so the catalog keeps the file's order |
| `Catalog.EveryGroupComesFromARow` | app.py:129-144 | every group in the catalog is some row of the file, enriched |
| `Catalog.RowKeptIffGeocoded` | app.py:125-144 | a single row gives exactly its enriched group when it has a name, a non-blank address and a coordinate, and nothing otherwise; with `LoadCatalogConcat` this fixes the whole catalog |
| `Catalog.OnlineRowWithoutAddressIsDropped` | app.py:130-144 | an online group with a blank address is dropped like any other row |
| `Seqs.Keep` | app.py:272-276 | `df[mask]` keeps only rows that pass the mask and is never longer than the table; `KeepMembership` and `KeepConcat` add that every passing row is kept and that order is kept |
| `Seqs.SortBy` | app.py:292 | `sort_values` returns a permutation of its input in non-decreasing key order |
| `Seqs.SortedHeadIsLeast` | app.py:292 | the first element of a sorted permutation has the least key of the input |
| `Search.Filter` | app.py:272-276 | a group is in the selection exactly when it is in the catalog with a chosen type, day and mode, and the selection is no longer than the catalog |
| `Search.IsOnline` | app.py:286-287 | `str.contains("Online", case=False)`: a group is online exactly when its mode spells "online" at some position, in any mix of upper and lower case |
| `Search.Matches` | app.py:273-275 | a group matches when its type, weekday and mode are each among the chosen ones |
| `Search.OnlineGroups` | app.py:286 | a group is in the online list exactly when it is among the given groups and its mode says "online" |
| `Search.InPersonGroups` | app.py:287 | a group is in the in-person list exactly when it is among the given groups and its mode does not say "online" |
| `Search.Rank` | app.py:289-292 | the in-person groups come back as a permutation sorted by distance from the visitor |
| `Search.SearchGroups` | app.py:263-301 | an empty name, WhatsApp number or address (app.py:266), the empty catalog and an unresolved address each give their warning, in that order of priority; otherwise the reference point is the resolved address, in-person results are sorted by distance and are the selected in-person groups, and online results are the selected online groups in catalog order |
| `Search.FirstQueryFailureReportsNotFound` | app.py:149-159 | when the São Paulo query raises, the search reports "Endereço não encontrado." whatever the "Brasil" query would say |
| `Search.FilterKeepsExactlyTheMatches` | app.py:272-276 | a group survives the filter exactly when its type, day and mode are all chosen |
| `Search.FilterKeepsOrder` | app.py:272-276 | the filter works on any split of the catalog piecewise, so it keeps catalog order |
| `Search.EmptySelectionMatchesNothing` | app.py:272-276 | an empty multiselect matches nothing rather than everything |
| `Search.SplitIsPartition` | app.py:286-287 | the online and in-person lists together hold each filtered group exactly as often as the filter did |
| `Search.SplitIsExclusive` | app.py:286-287 | a filtered group is in the online list exactly when it is not in the in-person list |
| `Search.SplitKeepsOrder` | app.py:286-287 | both lists keep the filtered groups' relative order |
| `Search.ResultsPartitionTheSelection` | app.py:272-292 | the two result lists together are the filtered groups, each list holds only its own kind, and the first in-person result is the nearest of all selected in-person groups |
| `Search.OnlineDetectionExamples` | app.py:286 | "Online" and "Híbrido / ONLINE" count as online and "Presencial" does not |
| `Search.SearchGroupsAsWritten` | app.py:263-301 | the handler with `if lat:`: "address not found" exactly when the fields are filled, the catalog is not empty, and the address is unresolved or has latitude 0.0; otherwise the same outcome as `SearchGroups` |
| `Search.EquatorAddressRejectedAsWritten` | app.py:278-301 | a place on the equator is resolved, yet the handler as written reports "address not found", while the corrected search shows results |
| `Notify.LeaderPhone` | app.py:170-173 | test mode always uses the operator number; otherwise the card's number is the normalised leader number, absent exactly when the cell is missing or has no ten-digit run; any number offered is normalised |
| `Notify.LeaderPhoneIsTheExtractedNumber` | app.py:172-173 | outside test mode the card's number is the leftmost greedy digit run of the cleaned phone cell, with "55" in front unless it already starts with it |
| `Notify.TestPhoneIsNormalized` | app.py:17 | the operator number "5519992071423" is itself a normalised number, and extraction leaves it unchanged |
| `Notify.SignUp` | app.py:185-224 | no button ("Sem contato") exactly when there is no leader phone; a request to fill in the name and number exactly when one is empty; otherwise the record of visitor, group, leader, normalised leader phone and mode is sent to the configured webhook |
| `Notify.TestModeAlwaysOffersContact` | app.py:170-202 | in test mode every card sends its record with the operator number as the leader's |
| `Notify.SendToWebhook` | app.py:99-118 | success exactly when a URL is configured and the reply is HTTP 200 with either a body that is not a JSON object or `status == "success"`; the message per case; a non-200 reply gives exactly "Erro HTTP " followed by the code in decimal, which reads back as the code |
| `Notify.UnconfiguredUrlNeverPosts` | app.py:100-101 | without a URL the answer is the fixed failure, whatever the webhook would have said |
| `Notify.HttpErrorsAreDistinguishable` | app.py:115-116 | two different non-200 codes give two different messages |
| `Text.Join` | app.py:82 | `", ".join(partes)` begins with the first part and is at least as long as the first part plus one separator per later part |
| `Text.JoinSnoc` | app.py:82 | adding a part to the end adds the separator and then that part, so a separator sits in each gap between parts |
| `Text.FirstNonSpace` | app.py:130 | the left end of `strip()`: everything skipped is white space and the scan stops at a non-space or the end |
| `Text.EndOfText` | app.py:130 | the right end of `strip()`: everything cut off is white space and what remains ends with a non-space or is empty |
| `Text.Strip` | app.py:130 | `strip()` is the slice of the text after its leading white space; only white space lies before and after that slice, and the slice is empty or neither begins nor ends with white space |
| `Text.IsBlank` | app.py:130 | a text is blank exactly when `strip()` leaves nothing of it |
| `Text.DecimalString` | app.py:116 | `f"{code}"`: a non-empty string of digits with no leading zero |
| `Text.ParseDecimalString` | app.py:116 | `f"{code}"` prints a number that reads back as the same number |

## Left out

- Streamlit presentation: CSS, forms, tabs, cards, "Ver mais" expanders, spinners, balloons and `st.session_state` (app.py:21-53, 161-338). These are widgets, not decisions. Three parts of that range are decisions and are modelled: the leader phone choice (app.py:170-173, `Notify.LeaderPhone`), the sign-up button (app.py:185-224, `Notify.SignUp`) and the search handler (app.py:263-301, `Search.SearchGroups`).
- Reading the CSV, stripping the column names, the ten-minute cache and creating the geocoder client (app.py:120-124, 126). This is file I/O, framework caching and library setup. `Catalog.LoadCatalog` starts from the rows already read; the `dropna(subset=['Nome do Life'])` of app.py:125 is modelled in `Catalog.Enrich`.
- The outer `except` of `carregar_dados`, which reports the error and returns an empty table (app.py:145-147). It handles I/O failures; an empty catalog is a valid input to `Search.SearchGroups`.
- The Nominatim network calls (app.py:126-141, 149-159). The geocoder is an oracle whose `Failed` answer stands for any exception the call raises.
- The geodesic distance (app.py:291). It is floating-point geodesy in a library; `Search.Distance` is an abstract function to `real`.
- The HTTP POST and JSON serialisation (app.py:103-104). The POST is an oracle returning `HttpOutcome`.
- The `wa.me` link and `urllib.parse.quote` (app.py:213-214). URL encoding is a library call.
- The bare `except` of `limpar_endereco_visual` (app.py:95-97). The model's fields are strings, so nothing in the `try` can raise.
- Notify.SendToWebhook: a `message` entry that is not a string is returned as it is by Python; the model keeps only string messages.
- Phone.ExtrairZap: cells that pandas reads as numbers go through `str()` first (app.py:58). The model takes the cell as text.
- Phone.Search: Python's `\d` also matches non-ASCII decimal digits; the model matches ASCII digits only.
- Search.IsOnline: `case=False` also pairs `i` with `İ` and `ı`; the model lower-cases ASCII letters only.
- The option lists built from the catalog (app.py:242-244). The form's default selection is UI; `Search.Query` takes the chosen sets directly.
- Missing cells in the type, day and mode columns. The model's groups hold text there.
- A second, chat-notification channel and stable tie-breaking in the sort. Neither exists in this file.

## Findings

| source | as written | input that shows it | evidently intended | confidence | as-written member | corrected member |
|---|---|---|---|---|---|---|
| app.py:280 | `if lat:` treats a latitude of exactly 0.0 as "Endereço não encontrado." | a geocoder answer at `Coord(0.0, -51.07)`, on the equator near Macapá (`Search.EquatorAddressRejectedAsWritten`) | any resolved address proceeds to the results (`if lat is not None:`, and the same test on `st.session_state.lat_user` at app.py:303, which decides whether the results are shown) | not executed; only an exact 0.0 latitude triggers it | `Search.SearchGroupsAsWritten` | `Search.SearchGroups` |

=== FILE: address.dfy ===
/** The Address Resolver: `limpar_endereco_visual` (app.py:65-97) builds a display label from a
    geocoder answer, and `obter_lat_lon_usuario` (app.py:149-159) geocodes a visitor's address
    with one retry. The geocoder is an oracle from query text to its answer: a place, no
    place, or a failure (an exception such as a timeout). */
module Address {
  import opened Wrappers
  import opened Text
  import opened Seqs

  datatype Coord = Coord(lat: real, lon: real)

  /** What the geocoder returns for a query: the coordinate, the structured `address` fields
      of its raw answer (an absent `address` entry is the empty map), and the raw display
      address. */
  datatype Place = Place(coord: Coord, fields: map<string, string>, display: string)

  /** One geocoder call: `geocode` returned a location, returned None, or raised. */
  datatype Answer = Found(place: Place) | NotFound | Failed

  type Geocoder = string -> Answer

  /** `d.get(k, default)`: the value when the KEY is present, even if that value is empty. */
  function Get(fields: map<string, string>, k: string, default: string): string {
    if k in fields then fields[k] else default
  }

  function Road(f: map<string, string>): string {
    Get(f, "road", "")
  }

  function HouseNumber(f: map<string, string>): string {
    Get(f, "house_number", "")
  }

  /** `suburb`, or `neighbourhood` only when the `suburb` key is absent. */
  function Suburb(f: map<string, string>): (r: string)
    ensures "suburb" in f ==> r == f["suburb"]
    ensures "suburb" !in f && "neighbourhood" in f ==> r == f["neighbourhood"]
    ensures "suburb" !in f && "neighbourhood" !in f ==> r == ""
  {
    Get(f, "suburb", Get(f, "neighbourhood", ""))
  }

  /** `city`, else `town`, else `municipality`, each only when the keys before it are absent. */
  function City(f: map<string, string>): (r: string)
    ensures "city" in f ==> r == f["city"]
    ensures "city" !in f && "town" in f ==> r == f["town"]
    ensures "city" !in f && "town" !in f && "municipality" in f ==> r == f["municipality"]
    ensures "city" !in f && "town" !in f && "municipality" !in f ==> r == ""
  {
    Get(f, "city", Get(f, "town", Get(f, "municipality", "")))
  }

  /** The `if x: partes.append(x)` test: Python reads only the empty string as false. */
  predicate IsFilled(x: string) {
    x != ""
  }

  /** "road, number, suburb - city" built from the non-empty fields. */
  function Composed(f: map<string, string>): (r: string)
    ensures Road(f) != "" ==> StartsWith(r, Road(f))
    ensures City(f) != "" ==> |r| >= |City(f)| + 3 && r[|r| - |City(f)| - 3..] == " - " + City(f)
  {
    var parts := Keep([Road(f), HouseNumber(f), Suburb(f)], IsFilled);
    assert Road(f) != "" ==> |parts| > 0 && parts[0] == Road(f) by {
      if Road(f) != "" {
        FilledParts(Road(f), HouseNumber(f), Suburb(f));
      }
    }
    var text := Join(parts, ", ");
    if City(f) != "" then
      var r := text + " - " + City(f);
      assert Road(f) != "" ==> r[..|Road(f)|] == text[..|Road(f)|];
      r
    else text
  }

  /** The composed label is unusable: shorter than five characters, or without a road. A road
      and a city together always make it usable. */
  function NeedsFallback(f: map<string, string>): (b: bool)
    ensures Road(f) == "" ==> b
    ensures Road(f) != "" && City(f) != "" ==> !b
  {
    |Composed(f)| < 5 || Road(f) == ""
  }

  /** The first two comma-separated pieces of the raw address, or all of it without a comma. */
  function RawFallback(raw: string): (r: string)
    ensures ',' !in raw ==> r == raw
    ensures ',' in raw ==> r == Split(raw, ',')[0] + ", " + Split(raw, ',')[1]
  {
    var bruto := Split(raw, ',');
    if |bruto| >= 2 then bruto[0] + ", " + bruto[1] else raw
  }

  /** `limpar_endereco_visual(location)`. */
  function Label(f: map<string, string>, raw: string): (r: string)
    ensures !NeedsFallback(f) ==> StartsWith(r, Road(f)) && |r| >= 5
    ensures !NeedsFallback(f) && City(f) != "" ==>
      |r| >= |City(f)| + 3 && r[|r| - |City(f)| - 3..] == " - " + City(f)
    ensures NeedsFallback(f) && ',' !in raw ==> r == raw
  {
    if NeedsFallback(f) then RawFallback(raw)
    else
      Composed(f)
  }

  /** When the composed label is unusable and the raw address has a comma, the label is the
      text before the first comma and the text between the first and second commas, joined
      by ", ", each with its surrounding spaces kept. */
  lemma FallbackTakesFirstTwoPieces(f: map<string, string>, a: string, b: string, rest: string)
    requires NeedsFallback(f)
    requires ',' !in a && ',' !in b
    requires rest == "" || rest[0] == ','
    ensures Label(f, a + "," + b + rest) == a + ", " + b
  {
    RawFallbackTakesFirstTwoPieces(a, b, rest);
  }

  lemma RawFallbackTakesFirstTwoPieces(a: string, b: string, rest: string)
    requires ',' !in a && ',' !in b
    requires rest == "" || rest[0] == ','
    ensures RawFallback(a + "," + b + rest) == a + ", " + b
  {
    SplitAfterSeparator(a, ',', b + rest);
    assert a + "," + b + rest == a + [','] + (b + rest);
    if rest == "" {
      SplitWithoutSeparator(b, ',');
      assert b + rest == b;
    } else {
      assert rest == [','] + rest[1..];
      SplitAfterSeparator(b, ',', rest[1..]);
      assert b + rest == b + [','] + rest[1..];
    }
  }

  /** A usable composed label reads field by field: the road, then ", number" and ", suburb"
      for those present, then " - city" exactly when there is a city. */
  lemma ComposedLabelReadsFieldByField(f: map<string, string>, raw: string)
    requires !NeedsFallback(f)
    ensures Label(f, raw) ==
      Road(f)
      + (if HouseNumber(f) != "" then ", " + HouseNumber(f) else "")
      + (if Suburb(f) != "" then ", " + Suburb(f) else "")
      + (if City(f) != "" then " - " + City(f) else "")
  {
    FilledPartsJoin(Road(f), HouseNumber(f), Suburb(f));
  }

  /** Joining the present parts after a present road puts ", " before each later part. */
  lemma FilledPartsJoin(r: string, n: string, s: string)
    requires r != ""
    ensures Join(Keep([r, n, s], IsFilled), ", ") ==
      r + (if n != "" then ", " + n else "") + (if s != "" then ", " + s else "")
  {
    var parts := Keep([r, n, s], IsFilled);
    FilledParts(r, n, s);
    if n != "" && s != "" {
      assert Join([n, s], ", ") == n + ", " + s;
    }
  }

  /** Which of road, number and suburb the label keeps, in order. */
  lemma FilledParts(r: string, n: string, s: string)
    requires r != ""
    ensures Keep([r, n, s], IsFilled) ==
      [r] + (if n != "" then [n] else []) + (if s != "" then [s] else [])
  {
    assert [r, n, s][1..] == [n, s];
    assert [n, s][1..] == [s];
    assert [s][1..] == [];
    assert Keep([s], IsFilled) == (if s != "" then [s] else []);
    assert Keep([n, s], IsFilled) == (if n != "" then [n] else []) + Keep([s], IsFilled);
  }

  /** A label from all four fields reads "road, number, suburb - city". */
  lemma FullAddressLabel(f: map<string, string>, raw: string)
    requires Road(f) != "" && HouseNumber(f) != "" && Suburb(f) != "" && City(f) != ""
    ensures Label(f, raw) == Road(f) + ", " + HouseNumber(f) + ", " + Suburb(f) + " - " + City(f)
  {
    var r, n, s, c := Road(f), HouseNumber(f), Suburb(f), City(f);
    ComposedLabelReadsFieldByField(f, raw);
    assert Label(f, raw) == r + (", " + n) + (", " + s) + (" - " + c);
  }

  /** A present `suburb` key, even one holding "", hides `neighbourhood`. */
  lemma SuburbKeyHidesNeighbourhood(f: map<string, string>, raw: string, v: string)
    requires "suburb" in f
    ensures Label(f["neighbourhood" := v], raw) == Label(f, raw)
  {
    var g := f["neighbourhood" := v];
    assert Road(g) == Road(f) && HouseNumber(g) == HouseNumber(f);
    assert Suburb(g) == Suburb(f) && City(g) == City(f);
  }

  /** A present `city` key, even one holding "", hides `town` and `municipality`. */
  lemma CityKeyHidesTownAndMunicipality(f: map<string, string>, raw: string, t: string, m: string)
    requires "city" in f
    ensures Label(f["town" := t]["municipality" := m], raw) == Label(f, raw)
  {
    var g := f["town" := t]["municipality" := m];
    assert Road(g) == Road(f) && HouseNumber(g) == HouseNumber(f);
    assert Suburb(g) == Suburb(f) && City(g) == City(f);
  }

  /** Only the seven field names the function reads affect the label. */
  lemma OtherFieldsDoNotMatter(f: map<string, string>, raw: string, k: string, v: string)
    requires k !in {"road", "house_number", "suburb", "neighbourhood", "city", "town", "municipality"}
    ensures Label(f[k := v], raw) == Label(f, raw)
  {
    var g := f[k := v];
    assert Road(g) == Road(f) && HouseNumber(g) == HouseNumber(f);
    assert Suburb(g) == Suburb(f) && City(g) == City(f);
  }

  /** The two queries `obter_lat_lon_usuario` sends, in order. */
  function CityQuery(address: string): string {
    address + ", São Paulo, Brasil"
  }

  function CountryQuery(address: string): string {
    address + ", Brasil"
  }

  /** The coordinate and display label `obter_lat_lon_usuario` returns for a found place. */
  function Describe(p: Place): (r: (Coord, string))
    ensures r.0 == p.coord
    ensures !NeedsFallback(p.fields) ==> StartsWith(r.1, Road(p.fields))
    ensures NeedsFallback(p.fields) && ',' !in p.display ==> r.1 == p.display
  {
    (p.coord, Label(p.fields, p.display))
  }

  /** `obter_lat_lon_usuario(endereco)`: the coordinate and display label of the São Paulo
      query's place; when that query finds nothing, of the "Brasil" query's place. A failure
      of either call ends the lookup with None, and a failure of the first one means the
      second is never asked. */
  function ResolveVisitor(address: string, geocode: Geocoder): (r: Option<(Coord, string)>)
    ensures r.Some? <==>
      || geocode(CityQuery(address)).Found?
      || (geocode(CityQuery(address)).NotFound? && geocode(CountryQuery(address)).Found?)
    ensures geocode(CityQuery(address)).Found? ==>
      r == Some(Describe(geocode(CityQuery(address)).place))
    ensures geocode(CityQuery(address)).NotFound? && geocode(CountryQuery(address)).Found? ==>
      r == Some(Describe(geocode(CountryQuery(address)).place))
  {
    match geocode(CityQuery(address))
    case Failed => None
    case Found(p) => Some(Describe(p))
    case NotFound =>
      match geocode(CountryQuery(address))
      case Found(p) => Some(Describe(p))
      case _ => None
  }

  /** After a failed first query the lookup gives up: what the geocoder would say to the
      second query makes no difference. */
  lemma FailedFirstQueryIsNotRetried(address: string, g1: Geocoder, g2: Geocoder)
    requires g1(CityQuery(address)) == g2(CityQuery(address)) == Failed
    ensures ResolveVisitor(address, g1) == ResolveVisitor(address, g2) == None
  {
  }
}

=== FILE: catalog.dfy ===
/** The Catalog Loader's row-retention rule, `carregar_dados` (app.py:120-147): rows without a
    group name are dropped, each remaining row's address is geocoded once, and only rows that
    received a coordinate are kept. */
module Catalog {
  import opened Wrappers
  import opened Text
  import opened Address

  /** One row of the catalog file as pandas reads it. `None` in `name`, `phone` or
      `neighbourhood` is an empty (NaN) cell; `None` in `address` is any cell that is not a
      string (NaN, or a number). */
  datatype SourceRow = SourceRow(
    name: Option<string>,
    kind: string,
    day: string,
    mode: string,
    start: string,
    leader: string,
    phone: Option<string>,
    neighbourhood: Option<string>,
    address: Option<string>)

  /** A catalog row that survived loading, with its coordinate. */
  datatype Group = Group(
    name: string,
    kind: string,
    day: string,
    mode: string,
    start: string,
    leader: string,
    phone: Option<string>,
    neighbourhood: Option<string>,
    address: string,
    coord: Coord)

  /** The address is a string that is not blank once stripped, so it is sent to the geocoder. */
  predicate HasQueryableAddress(row: SourceRow) {
    row.address.Some? && !IsBlank(row.address.value)
  }

  /** The fate of one row: a group with the coordinate the geocoder gave for
      "<address>, Brasil", or None when the row is dropped. A geocoder failure is caught
      and drops the row just as an empty answer does. */
  function Enrich(row: SourceRow, geocode: Geocoder): (g: Option<Group>)
    ensures g.Some? <==>
      row.name.Some? && HasQueryableAddress(row) && geocode(CountryQuery(row.address.value)).Found?
    ensures g.Some? ==>
      && g.value.name == row.name.value
      && g.value.address == row.address.value
      && g.value.coord == geocode(CountryQuery(row.address.value)).place.coord
      && (g.value.kind, g.value.day, g.value.mode) == (row.kind, row.day, row.mode)
      && (g.value.start, g.value.leader) == (row.start, row.leader)
      && (g.value.phone, g.value.neighbourhood) == (row.phone, row.neighbourhood)
  {
    match row.name
    case None => None
    case Some(name) =>
      if !HasQueryableAddress(row) then None
      else match geocode(CountryQuery(row.address.value))
        case Found(p) =>
          Some(Group(name, row.kind, row.day, row.mode, row.start, row.leader, row.phone,
                     row.neighbourhood, row.address.value, p.coord))
        case _ => None
  }

  /** `carregar_dados()` once the file has been read: the enriched rows, in file order. */
  function LoadCatalog(rows: seq<SourceRow>, geocode: Geocoder): (r: seq<Group>)
    ensures |r| <= |rows|
    ensures forall i :: 0 <= i < |r| ==>
      && !IsBlank(r[i].address)
      && geocode(CountryQuery(r[i].address)).Found?
      && geocode(CountryQuery(r[i].address)).place.coord == r[i].coord
    decreases |rows|
  {
    if |rows| == 0 then []
    else
      var tail := LoadCatalog(rows[1..], geocode);
      match Enrich(rows[0], geocode)
      case None => tail
      case Some(g) => [g] + tail
  }

  /** Loading works row by row, so the catalog keeps the file's order. */
  lemma {:induction false} LoadCatalogConcat(a: seq<SourceRow>, b: seq<SourceRow>, geocode: Geocoder)
    ensures LoadCatalog(a + b, geocode) == LoadCatalog(a, geocode) + LoadCatalog(b, geocode)
    decreases |a|
  {
    if |a| == 0 {
      assert a + b == b;
    } else {
      assert (a + b)[0] == a[0];
      assert (a + b)[1..] == a[1..] + b;
      LoadCatalogConcat(a[1..], b, geocode);
    }
  }

  /** Every group in the catalog is some row of the file, enriched. */
  lemma {:induction false} EveryGroupComesFromARow(rows: seq<SourceRow>, geocode: Geocoder)
    ensures forall g :: g in LoadCatalog(rows, geocode) ==>
      exists j :: 0 <= j < |rows| && Enrich(rows[j], geocode) == Some(g)
    decreases |rows|
  {
    if |rows| > 0 {
      var tail := rows[1..];
      EveryGroupComesFromARow(tail, geocode);
      var head := if Enrich(rows[0], geocode).Some? then [Enrich(rows[0], geocode).value] else [];
      assert LoadCatalog(rows, geocode) == head + LoadCatalog(tail, geocode);
      forall g | g in LoadCatalog(rows, geocode)
        ensures exists j :: 0 <= j < |rows| && Enrich(rows[j], geocode) == Some(g)
      {
        if g in head {
          assert Enrich(rows[0], geocode) == Some(g);
        } else {
          var j :| 0 <= j < |tail| && Enrich(tail[j], geocode) == Some(g);
          assert tail[j] == rows[j + 1];
        }
      }
    }
  }

  /** A row is kept exactly when it has a name, a non-blank address and a geocoded
      coordinate, and what is kept is that row, enriched. */
  lemma RowKeptIffGeocoded(row: SourceRow, geocode: Geocoder)
    ensures LoadCatalog([row], geocode) ==
      if Enrich(row, geocode).Some? then [Enrich(row, geocode).value] else []
    ensures |LoadCatalog([row], geocode)| == 1 <==>
      row.name.Some? && HasQueryableAddress(row) && geocode(CountryQuery(row.address.value)).Found?
  {
    assert [row][1..] == [];
  }

  /** The coordinate requirement applies to every mode: an online group whose address is blank
      never reaches the catalog. */
  lemma OnlineRowWithoutAddressIsDropped(row: SourceRow, geocode: Geocoder)
    requires row.mode == "Online" && row.address == Some("  ")
    ensures LoadCatalog([row], geocode) == []
  {
  }
}

=== FILE: notify.dfy ===
/** The Notification Dispatcher's decisions: which leader phone a card offers (app.py:170-173)
    and how `enviar_para_webhook` (app.py:99-118) turns the webhook's HTTP response into the
    pair `(ok, info)` shown to the visitor. */
module Notify {
  import opened Wrappers
  import opened Text
  import opened Phone
  import opened Catalog

  /** The module-level switches of app.py:11-17, passed in explicitly. */
  datatype Config = Config(webhookUrl: string, testMode: bool)

  /** `ZAP_TESTE`: the operator number every card offers in test mode. */
  const TestPhone: string := "5519992071423"

  /** The leader phone a card uses: the operator number in test mode, otherwise the number
      extracted from the group's phone cell. Either way it is a normalised number. */
  function LeaderPhone(cfg: Config, g: Group): (r: Option<string>)
    ensures cfg.testMode ==> r == Some(TestPhone)
    ensures r.Some? ==> IsNormalized(r.value)
    ensures !cfg.testMode ==>
      (r.None? <==> (g.phone.None? || forall j :: 0 <= j ==> !MatchesAt(Clean(g.phone.value), j)))
  {
    if cfg.testMode then TestPhoneIsNormalized(TestPhone); Some(TestPhone) else ExtrairZap(g.phone)
  }

  /** Outside test mode the card's number is exactly what `extrair_zap` makes of the leader's
      cell: the leftmost greedy digit run of the cleaned text, with "55" in front unless it
      already starts with it. */
  lemma LeaderPhoneIsTheExtractedNumber(cfg: Config, g: Group, start: nat, len: nat)
    requires !cfg.testMode && g.phone.Some?
    requires IsRegexMatch(Clean(g.phone.value), start, len)
    ensures var run := Clean(g.phone.value)[start..start + len];
      LeaderPhone(cfg, g) == Some(if StartsWith(run, CountryPrefix) then run else CountryPrefix + run)
  {
    ExtrairZapReturnsPrefixedMatch(g.phone.value, start, len);
  }

  /** The operator number is itself a normalised number, so test mode and a real leader whose
      cell holds that number lead to the same contact. */
  lemma TestPhoneIsNormalized(p: string)
    requires p == TestPhone
    ensures IsNormalized(p)
    ensures ExtrairZap(Some(p)) == Some(p)
  {
    assert AllDigits(p);
    NormalizedNumberIsFixedPoint(p);
  }

  /** The JSON record posted to the webhook (app.py:194-201). */
  datatype Payload = Payload(
    visitorName: string,
    visitorPhone: string,
    groupName: string,
    leaderName: string,
    leaderPhone: string,
    mode: string)

  /** The body of an HTTP response as `response.json()` sees it: not JSON at all, a JSON object
      with its optional `status` and `message` entries, or some other JSON value. */
  datatype Body =
    | NotJson
    | JsonObject(status: Option<string>, message: Option<string>)
    | JsonOther

  /** What `requests.post` yields: an exception's text, or a status code and a body. */
  datatype HttpOutcome =
    | TransportError(reason: string)
    | Response(code: nat, body: Body)

  datatype Delivery = Delivery(ok: bool, info: string)

  const UrlMissing: string := "URL do Webhook não configurada."
  const DefaultSuccess: string := "Sucesso"
  const DefaultScriptError: string := "Erro desconhecido no Script"
  const SuccessWithoutJson: string := "Sucesso (Sem JSON)"
  const HttpErrorPrefix: string := "Erro HTTP "

  /** The webhook accepted the record: HTTP 200 and either a body that is not a JSON object
      (`.get` fails and the bare `except` reports success) or `status == "success"`. */
  predicate Accepted(outcome: HttpOutcome) {
    && outcome.Response?
    && outcome.code == 200
    && (outcome.body.JsonObject? ==> outcome.body.status == Some("success"))
  }

  /** `enviar_para_webhook(dados)` with the POST itself as an oracle. */
  function SendToWebhook(url: string, data: Payload, post: (string, Payload) -> HttpOutcome): (d: Delivery)
    ensures d.ok <==> url != "" && Accepted(post(url, data))
    ensures url == "" ==> d.info == UrlMissing
    ensures url != "" && post(url, data).TransportError? ==> d.info == post(url, data).reason
    ensures url != "" && post(url, data).Response? && post(url, data).code != 200 ==>
      && d.info == HttpErrorPrefix + DecimalString(post(url, data).code)
      && ParseDecimal(d.info[|HttpErrorPrefix|..]) == post(url, data).code
    ensures url != "" && post(url, data) == Response(200, NotJson) ==> d.info == SuccessWithoutJson
    ensures url != "" && post(url, data) == Response(200, JsonOther) ==> d.info == SuccessWithoutJson
    ensures (url != "" && post(url, data).Response? && post(url, data).code == 200
             && post(url, data).body.JsonObject?) ==>
      d.info == post(url, data).body.message.GetOr(if d.ok then DefaultSuccess else DefaultScriptError)
  {
    if url == "" then Delivery(false, UrlMissing)
    else
      match post(url, data)
      case TransportError(reason) => Delivery(false, reason)
      case Response(code, body) =>
        if code != 200 then
          var info := HttpErrorPrefix + DecimalString(code);
          assert info[|HttpErrorPrefix|..] == DecimalString(code);
          ParseDecimalString(code);
          Delivery(false, info)
        else
          match body
          case JsonObject(status, message) =>
            if status == Some("success") then Delivery(true, message.GetOr(DefaultSuccess))
            else Delivery(false, message.GetOr(DefaultScriptError))
          case _ => Delivery(true, SuccessWithoutJson)
  }

  /** Without a configured URL nothing is posted: the answer does not depend on the webhook. */
  lemma UnconfiguredUrlNeverPosts(data: Payload, post1: (string, Payload) -> HttpOutcome,
                                  post2: (string, Payload) -> HttpOutcome)
    ensures SendToWebhook("", data, post1) == SendToWebhook("", data, post2) == Delivery(false, UrlMissing)
  {
  }

  /** Two different non-200 codes give two different messages. */
  lemma HttpErrorsAreDistinguishable(url: string, data: Payload, p1: (string, Payload) -> HttpOutcome,
                                     p2: (string, Payload) -> HttpOutcome)
    requires url != "" && p1(url, data).Response? && p2(url, data).Response?
    requires p1(url, data).code != 200 && p2(url, data).code != 200
    requires p1(url, data).code != p2(url, data).code
    ensures SendToWebhook(url, data, p1).info != SendToWebhook(url, data, p2).info
  {
  }

  /** What pressing "Quero Participar" on a card leads to. */
  datatype Click =
    | NoContact
    | FillInFirst
    | Sent(delivery: Delivery)

  /** The card's sign-up (app.py:170-207): without a leader phone the card shows "Sem contato"
      and has no button; with an empty visitor name or number the button asks for them; otherwise
      the record of the visitor, the group and its leader goes to the webhook. */
  function SignUp(cfg: Config, visitorName: string, visitorPhone: string, g: Group,
                  post: (string, Payload) -> HttpOutcome): (c: Click)
    ensures c.NoContact? <==> LeaderPhone(cfg, g).None?
    ensures c.FillInFirst? <==> LeaderPhone(cfg, g).Some? && (visitorName == "" || visitorPhone == "")
    ensures c.Sent? ==>
      var data := Payload(visitorName, visitorPhone, g.name, g.leader, LeaderPhone(cfg, g).value, g.mode);
      && IsNormalized(data.leaderPhone)
      && c.delivery == SendToWebhook(cfg.webhookUrl, data, post)
  {
    match LeaderPhone(cfg, g)
    case None => NoContact
    case Some(leaderPhone) =>
      if visitorName == "" || visitorPhone == "" then FillInFirst
      else Sent(SendToWebhook(cfg.webhookUrl,
                              Payload(visitorName, visitorPhone, g.name, g.leader, leaderPhone, g.mode), post))
  }

  /** In test mode every card offers the sign-up button, and the record names the operator
      number as the leader's. */
  lemma TestModeAlwaysOffersContact(cfg: Config, visitorName: string, visitorPhone: string, g: Group,
                                    post: (string, Payload) -> HttpOutcome)
    requires cfg.testMode && visitorName != "" && visitorPhone != ""
    ensures SignUp(cfg, visitorName, visitorPhone, g, post) ==
      Sent(SendToWebhook(cfg.webhookUrl, Payload(visitorName, visitorPhone, g.name, g.leader, TestPhone, g.mode), post))
  {
  }
}

=== FILE: phone.dfy ===
/** `extrair_zap` (app.py:56-63): normalises a free-text phone cell into a digit string with
    the Brazilian country prefix "55". */
module Phone {
  import opened Wrappers
  import opened Text
  import opened Seqs

  /** The regular expression `\d{10,13}`: between 10 and 13 digits, as many as possible. */
  const MinRun: nat := 10
  const MaxRun: nat := 13
  const CountryPrefix: string := "55"

  /** The four characters removed before searching: `-`, `(`, `)` and space. */
  predicate IsStripped(c: char) {
    c == '-' || c == '(' || c == ')' || c == ' '
  }

  predicate IsKept(c: char) {
    !IsStripped(c)
  }

  /** The chain of `str.replace(x, "")` calls: deletes the stripped characters and keeps
      every other character, `+` and `.` included, in order. */
  function Clean(s: string): (r: string)
    ensures forall i :: 0 <= i < |r| ==> !IsStripped(r[i])
  {
    Keep(s, IsKept)
  }

  /** Cleaning works piece by piece. */
  lemma CleanConcat(a: string, b: string)
    ensures Clean(a + b) == Clean(a) + Clean(b)
  {
    KeepConcat(a, b, IsKept);
  }

  /** Text without `-`, `(`, `)` or space is left as it is. */
  lemma CleanKeepsOtherText(s: string)
    requires forall i :: 0 <= i < |s| ==> !IsStripped(s[i])
    ensures Clean(s) == s
  {
    KeepAll(s, IsKept);
  }

  /** Text made only of `-`, `(`, `)` and space disappears. */
  lemma CleanErasesSeparators(s: string)
    requires forall i :: 0 <= i < |s| ==> IsStripped(s[i])
    ensures Clean(s) == []
  {
    KeepNone(s, IsKept);
  }

  /** Ten digits begin at position `j`, so the regular expression can match there. */
  predicate MatchesAt(s: string, j: int) {
    0 <= j && j + MinRun <= |s| && forall k :: j <= k < j + MinRun ==> IsDigit(s[k])
  }

  /** What `re.search(r'\d{10,13}', s)` returns, stated declaratively: the match starts at
      the leftmost position where ten digits begin, and greedily takes up to 13 digits. */
  predicate IsRegexMatch(s: string, start: nat, len: nat) {
    && MinRun <= len <= MaxRun
    && start + len <= |s|
    && (forall k :: start <= k < start + len ==> IsDigit(s[k]))
    && (len == MaxRun || start + len == |s| || !IsDigit(s[start + len]))
    && (forall j :: 0 <= j < start ==> !MatchesAt(s, j))
  }

  /** Number of consecutive digits starting at position `i`. */
  function DigitRun(s: string, i: nat): (n: nat)
    requires i <= |s|
    ensures i + n <= |s|
    ensures forall k :: i <= k < i + n ==> IsDigit(s[k])
    ensures i + n == |s| || !IsDigit(s[i + n])
    decreases |s| - i
  {
    if i == |s| || !IsDigit(s[i]) then 0 else 1 + DigitRun(s, i + 1)
  }

  /** The regular-expression engine's scan: tries each start position from `i` on. */
  function FirstMatchFrom(s: string, i: nat): (r: Option<nat>)
    ensures r.Some? ==> i <= r.value && MatchesAt(s, r.value)
    ensures r.Some? ==> forall j :: i <= j < r.value ==> !MatchesAt(s, j)
    ensures r.None? ==> forall j :: i <= j ==> !MatchesAt(s, j)
    decreases |s| - i
  {
    if i + MinRun > |s| then None
    else if DigitRun(s, i) >= MinRun then Some(i)
    else FirstMatchFrom(s, i + 1)
  }

  datatype Span = Span(start: nat, len: nat)

  /** `re.search(r'\d{10,13}', s)`: the span of the match, or None. */
  function Search(s: string): (r: Option<Span>)
    ensures r.None? <==> forall j :: 0 <= j ==> !MatchesAt(s, j)
    ensures r.Some? ==> IsRegexMatch(s, r.value.start, r.value.len)
  {
    match FirstMatchFrom(s, 0)
    case None => None
    case Some(start) =>
      var n := DigitRun(s, start);
      Some(Span(start, if n < MaxRun then n else MaxRun))
  }

  /** The declarative description admits exactly one match, so it pins `Search` down. */
  lemma RegexMatchIsUnique(s: string, a: nat, m: nat, b: nat, n: nat)
    requires IsRegexMatch(s, a, m) && IsRegexMatch(s, b, n)
    ensures a == b && m == n
  {
    if a < b {
      assert MatchesAt(s, a);
    } else if b < a {
      assert MatchesAt(s, b);
    }
  }

  /** A normalised number: only digits, starting with "55", 10 to 15 characters long. */
  predicate IsNormalized(p: string) {
    AllDigits(p) && StartsWith(p, CountryPrefix) && MinRun <= |p| <= MaxRun + |CountryPrefix|
  }

  /** `extrair_zap(texto)`, with `None` standing for a missing (NaN) cell. */
  function ExtrairZap(texto: Option<string>): (r: Option<string>)
    ensures texto.None? ==> r.None?
    ensures texto.Some? ==> (r.None? <==> forall j :: 0 <= j ==> !MatchesAt(Clean(texto.value), j))
    ensures r.Some? ==> IsNormalized(r.value)
  {
    match texto
    case None => None
    case Some(t) =>
      var limpo := Clean(t);
      match Search(limpo)
      case None => None
      case Some(sp) =>
        var num := limpo[sp.start..sp.start + sp.len];
        assert AllDigits(num);
        if StartsWith(num, CountryPrefix) then Some(num) else Some(CountryPrefix + num)
  }

  /** The result is the leftmost greedy match of the cleaned text, returned as it is when it
      already starts with "55" and with "55" put in front otherwise. */
  lemma ExtrairZapReturnsPrefixedMatch(t: string, start: nat, len: nat)
    requires IsRegexMatch(Clean(t), start, len)
    ensures var run := Clean(t)[start..start + len];
      ExtrairZap(Some(t)) == Some(if StartsWith(run, CountryPrefix) then run else CountryPrefix + run)
  {
    assert MatchesAt(Clean(t), start);
    var sp := Search(Clean(t));
    RegexMatchIsUnique(Clean(t), start, len, sp.value.start, sp.value.len);
  }

  /** When the cleaned text is a 10 to 13 digit number, the result is that whole number,
      with "55" put in front unless it is already there. */
  lemma CleanNumberIsKeptWhole(t: string)
    requires AllDigits(Clean(t)) && MinRun <= |Clean(t)| <= MaxRun
    ensures var c := Clean(t);
      ExtrairZap(Some(t)) == Some(if StartsWith(c, CountryPrefix) then c else CountryPrefix + c)
  {
    var c := Clean(t);
    assert IsRegexMatch(c, 0, |c|);
    ExtrairZapReturnsPrefixedMatch(t, 0, |c|);
    assert c[0..|c|] == c;
  }

  /** A 10 to 13 digit string that already starts with "55" comes back unchanged. */
  lemma NormalizedNumberIsFixedPoint(p: string)
    requires AllDigits(p) && StartsWith(p, CountryPrefix) && MinRun <= |p| <= MaxRun
    ensures ExtrairZap(Some(p)) == Some(p)
  {
    CleanKeepsOtherText(p);
    CleanNumberIsKeptWhole(p);
  }
}

=== FILE: phone_examples.dfy ===
/** Worked inputs for `extrair_zap`, proved from the general lemmas of `Phone`. */
module PhoneExamples {
  import opened Wrappers
  import opened Text
  import opened Phone

  /** Appending separators leaves the cleaned text as it was. */
  lemma CleanAppendSeparators(a: string, p: string)
    requires forall i :: 0 <= i < |p| ==> IsStripped(p[i])
    ensures Clean(a + p) == Clean(a)
  {
    CleanErasesSeparators(p);
    CleanConcat(a, p);
  }

  /** Appending text without separators appends it to the cleaned text. */
  lemma CleanAppendText(a: string, p: string)
    requires forall i :: 0 <= i < |p| ==> !IsStripped(p[i])
    ensures Clean(a + p) == Clean(a) + p
  {
    CleanKeepsOtherText(p);
    CleanConcat(a, p);
  }

  lemma CleanFormattedNumber(t: string)
    requires t == "(19) 99207-1423"
    ensures Clean(t) == "19992071423"
  {
    var p0, p1, p2, p3, p4, p5 := "(", "19", ") ", "99207", "-", "1423";
    assert t == p0 + p1 + p2 + p3 + p4 + p5;
    CleanErasesSeparators(p0);
    CleanAppendText(p0, p1);
    CleanAppendSeparators(p0 + p1, p2);
    CleanAppendText(p0 + p1 + p2, p3);
    CleanAppendSeparators(p0 + p1 + p2 + p3, p4);
    CleanAppendText(p0 + p1 + p2 + p3 + p4, p5);
  }

  /** A number written with area code in parentheses, a space and a hyphen gains the "55". */
  lemma FormattedNumberGainsCountryPrefix(t: string)
    requires t == "(19) 99207-1423"
    ensures ExtrairZap(Some(t)) == Some("5519992071423")
  {
    CleanFormattedNumber(t);
    ElevenDigitNumber(Clean(t));
    CleanNumberIsKeptWhole(t);
  }

  lemma ElevenDigitNumber(s: string)
    requires s == "19992071423"
    ensures AllDigits(s) && |s| == 11
    ensures !StartsWith(s, CountryPrefix) && CountryPrefix + s == "5519992071423"
  {
    assert s[..2] == "19";
  }

  /** Text with no digits has no number. */
  lemma LettersHaveNoNumber(t: string)
    requires t == "abc"
    ensures ExtrairZap(Some(t)) == None
  {
  }

  lemma CleanSpacedNumber(t: string)
    requires t == "+55 19992071423"
    ensures Clean(t) == "+5519992071423"
  {
    var p0, p1, p2 := "+55", " ", "19992071423";
    assert t == p0 + p1 + p2;
    CleanKeepsOtherText(p0);
    CleanAppendSeparators(p0, p1);
    CleanAppendText(p0 + p1, p2);
  }

  lemma SpacedNumberMatch(s: string)
    requires s == "+5519992071423"
    ensures IsRegexMatch(s, 1, 13) && s[1..14] == "5519992071423"
  {
    assert !IsDigit(s[0]);
  }

  /** A leading `+` is not removed, so the digit run, and the match, start after it. */
  lemma PlusSignPrecedesTheRun(t: string)
    requires t == "+55 19992071423"
    ensures ExtrairZap(Some(t)) == Some("5519992071423")
  {
    CleanSpacedNumber(t);
    SpacedNumberMatch(Clean(t));
    ExtrairZapReturnsPrefixedMatch(t, 1, 13);
  }

  /** Dots are kept and split the digits into runs too short to match. */
  lemma DotsBreakTheDigitRun(s: string)
    requires s == "19.99207.1423"
    ensures ExtrairZap(Some(s)) == None
  {
    CleanKeepsOtherText(s);
    assert forall j :: 0 <= j ==> !MatchesAt(s, j) by {
      forall j | 0 <= j
        ensures !MatchesAt(s, j)
      {
        if j + MinRun <= |s| {
          assert s[2] == '.' && s[8] == '.';
          assert !IsDigit(s[if j <= 2 then 2 else 8]);
        }
      }
    }
  }

  /** A 13-digit run not starting with "55" gains the prefix. */
  lemma ThirteenDigitsGainPrefix(s: string)
    requires AllDigits(s) && |s| == MaxRun && !StartsWith(s, CountryPrefix)
    ensures ExtrairZap(Some(s)) == Some(CountryPrefix + s)
  {
    CleanKeepsOtherText(s);
    CleanNumberIsKeptWhole(s);
  }

  /** A digit string longer than 13 that starts with "55" is cut to its first 13 digits. */
  lemma LongNumberIsCut(l: string)
    requires AllDigits(l) && |l| > MaxRun && StartsWith(l, CountryPrefix)
    ensures ExtrairZap(Some(l)) == Some(l[..MaxRun])
  {
    CleanKeepsOtherText(l);
    assert IsRegexMatch(l, 0, MaxRun);
    ExtrairZapReturnsPrefixedMatch(l, 0, MaxRun);
    assert l[0..MaxRun] == l[..MaxRun];
    assert l[..MaxRun][..2] == l[..2];
  }

  /** A 13-digit number without "55" becomes 15 digits long; extracting again keeps only
      its first 13 digits, so such a result is not a fixed point of `extrair_zap`. */
  lemma FifteenDigitResultIsNotAFixedPoint(s: string, l: string)
    requires s == "1234567890123" && l == "55" + s
    ensures ExtrairZap(Some(s)) == Some(l)
    ensures ExtrairZap(Some(l)) == Some(l[..13]) && l[..13] != l
  {
    assert s[..2] == "12";
    ThirteenDigitsGainPrefix(s);
    LongNumberIsCut(l);
  }
}

=== FILE: search.dfy ===
/** The Filter & Ranking Engine: the search handler of app.py:263-301 as a pure function of the
    form, the loaded catalog, the geocoder and a distance oracle. */
module Search {
  import opened Wrappers
  import opened Text
  import opened Seqs
  import opened Address
  import opened Catalog

  /** One submission of the search form: the visitor's data and the three multiselects. */
  datatype Query = Query(
    name: string,
    phone: string,
    address: string,
    kinds: set<string>,
    days: set<string>,
    modes: set<string>)

  /** What a submission leads to: one of the three warnings, or the reference point and the two
      result lists. */
  datatype Outcome =
    | MissingFields
    | EmptyCatalog
    | AddressNotFound
    | Results(origin: Coord, reference: string, inPerson: seq<Group>, online: seq<Group>)

  /** Geodesic distance in kilometres between two coordinates, left abstract. */
  type Distance = (Coord, Coord) -> real

  /** The `isin` test on all three columns at once. */
  predicate Matches(q: Query, g: Group) {
    g.kind in q.kinds && g.day in q.days && g.mode in q.modes
  }

  function MatcherOf(q: Query): Group -> bool {
    (g: Group) => Matches(q, g)
  }

  /** `df_geral[... isin ... & ... isin ... & ... isin ...]`. */
  function Filter(catalog: seq<Group>, q: Query): (r: seq<Group>)
    ensures |r| <= |catalog|
    ensures forall g :: g in r <==> g in catalog && Matches(q, g)
  {
    KeepMembershipAll(catalog, MatcherOf(q));
    Keep(catalog, MatcherOf(q))
  }

  const OnlineMarker: string := "Online"

  /** The marker as `case=False` compares it: letter by letter, ignoring case. */
  const OnlineWord: string := "online"

  /** The mode text, read with ASCII letters in lower case, spells "online" from position i. */
  predicate OnlineAt(mode: string, i: nat) {
    && i + |OnlineWord| <= |mode|
    && forall k :: 0 <= k < |OnlineWord| ==> LowerChar(mode[i + k]) == OnlineWord[k]
  }

  /** `str.contains("Online", case=False)` on the mode column: "online" occurs somewhere in
      the mode, in any mix of upper and lower case. */
  function IsOnline(g: Group): (b: bool)
    ensures b <==> exists i: nat :: OnlineAt(g.mode, i)
  {
    OnlineAtIsOccurrence(g.mode);
    Contains(ToLower(g.mode), ToLower(OnlineMarker))
  }

  lemma OnlineAtIsOccurrence(mode: string)
    ensures forall i: nat :: OnlineAt(mode, i) <==> OccursAt(ToLower(mode), ToLower(OnlineMarker), i)
  {
    var marker := ToLower(OnlineMarker);
    assert marker == OnlineWord;
    forall i: nat
      ensures OnlineAt(mode, i) <==> OccursAt(ToLower(mode), marker, i)
    {
      var low := ToLower(mode);
      if i + |marker| <= |mode| {
        var window := low[i..i + |marker|];
        assert forall k :: 0 <= k < |marker| ==> window[k] == LowerChar(mode[i + k]);
      }
    }
  }

  predicate IsInPerson(g: Group) {
    !IsOnline(g)
  }

  /** `df_filtrado[... str.contains("Online", case=False)]`. */
  function OnlineGroups(groups: seq<Group>): (r: seq<Group>)
    ensures forall g :: g in r <==> g in groups && IsOnline(g)
  {
    KeepMembershipAll(groups, IsOnline);
    Keep(groups, IsOnline)
  }

  /** `df_filtrado[~ ... str.contains("Online", case=False)]`. */
  function InPersonGroups(groups: seq<Group>): (r: seq<Group>)
    ensures forall g :: g in r <==> g in groups && !IsOnline(g)
  {
    KeepMembershipAll(groups, IsInPerson);
    Keep(groups, IsInPerson)
  }

  /** The sort key: the distance from the visitor to the group. */
  function DistanceFrom(origin: Coord, distance: Distance): Group -> real {
    (g: Group) => distance(origin, g.coord)
  }

  /** `df_presencial.sort_values(by='distancia')`. */
  function Rank(groups: seq<Group>, origin: Coord, distance: Distance): (r: seq<Group>)
    ensures SortedBy(r, DistanceFrom(origin, distance))
    ensures multiset(r) == multiset(groups)
  {
    SortBy(groups, DistanceFrom(origin, distance))
  }

  /** The three text fields must all be filled in. */
  predicate FieldsFilled(q: Query) {
    q.name != "" && q.phone != "" && q.address != ""
  }

  /** A submission of the search form (app.py:263-301), with the visitor's address resolved by
      `obter_lat_lon_usuario`. When the filter leaves nothing, or no in-person group, the empty
      lists the source stores are exactly what the general case computes. */
  function SearchGroups(q: Query, catalog: seq<Group>, geocode: Geocoder, distance: Distance): (o: Outcome)
    ensures o.MissingFields? <==> !FieldsFilled(q)
    ensures o.EmptyCatalog? <==> FieldsFilled(q) && catalog == []
    ensures o.AddressNotFound? <==>
      FieldsFilled(q) && catalog != [] && ResolveVisitor(q.address, geocode).None?
    ensures o.Results? ==>
      && ResolveVisitor(q.address, geocode) == Some((o.origin, o.reference))
      && SortedBy(o.inPerson, DistanceFrom(o.origin, distance))
      && multiset(o.inPerson) == multiset(InPersonGroups(Filter(catalog, q)))
      && o.online == OnlineGroups(Filter(catalog, q))
  {
    if !FieldsFilled(q) then MissingFields
    else if catalog == [] then EmptyCatalog
    else
      var filtered := Filter(catalog, q);
      match ResolveVisitor(q.address, geocode)
      case None => AddressNotFound
      case Some((origin, reference)) =>
        Results(origin, reference, Rank(InPersonGroups(filtered), origin, distance), OnlineGroups(filtered))
  }

  /** A geocoder failure on the São Paulo query ends the search with "Endereço não
      encontrado.", even when the "Brasil" query would have found the address. */
  lemma FirstQueryFailureReportsNotFound(q: Query, catalog: seq<Group>, geocode: Geocoder, distance: Distance)
    requires FieldsFilled(q) && catalog != []
    requires geocode(CityQuery(q.address)).Failed?
    ensures SearchGroups(q, catalog, geocode, distance) == AddressNotFound
  {
  }

  /** A group survives the filter exactly when its type, day and mode are all chosen. */
  lemma FilterKeepsExactlyTheMatches(catalog: seq<Group>, q: Query, g: Group)
    ensures g in Filter(catalog, q) <==> g in catalog && Matches(q, g)
  {
    KeepMembership(catalog, MatcherOf(q), g);
  }

  /** The filter keeps the catalog's order: it works on any split of the catalog piecewise. */
  lemma FilterKeepsOrder(a: seq<Group>, b: seq<Group>, q: Query)
    ensures Filter(a + b, q) == Filter(a, q) + Filter(b, q)
  {
    KeepConcat(a, b, MatcherOf(q));
  }

  /** An empty multiselect matches nothing rather than everything. */
  lemma EmptySelectionMatchesNothing(catalog: seq<Group>, q: Query)
    requires q.kinds == {} || q.days == {} || q.modes == {}
    ensures Filter(catalog, q) == []
  {
    KeepNone(catalog, MatcherOf(q));
  }

  /** Selecting the online and the in-person groups splits a list exactly: nothing is lost
      and nothing is duplicated. */
  lemma SplitIsPartition(groups: seq<Group>)
    ensures multiset(InPersonGroups(groups)) + multiset(OnlineGroups(groups)) == multiset(groups)
  {
    KeepSplitsMultiset(groups, IsInPerson, IsOnline);
  }

  /** Every listed group lands in exactly one of the two lists. */
  lemma SplitIsExclusive(groups: seq<Group>, g: Group)
    requires g in groups
    ensures g in OnlineGroups(groups) <==> g !in InPersonGroups(groups)
  {
    KeepMembership(groups, IsOnline, g);
    KeepMembership(groups, IsInPerson, g);
  }

  /** Both lists keep the relative order of the filtered groups. */
  lemma SplitKeepsOrder(a: seq<Group>, b: seq<Group>)
    ensures OnlineGroups(a + b) == OnlineGroups(a) + OnlineGroups(b)
    ensures InPersonGroups(a + b) == InPersonGroups(a) + InPersonGroups(b)
  {
    KeepConcat(a, b, IsOnline);
    KeepConcat(a, b, IsInPerson);
  }

  /** A successful search shows every selected group once, each in the right list, and the
      first in-person group is the nearest of all selected in-person groups. */
  lemma ResultsPartitionTheSelection(q: Query, catalog: seq<Group>, geocode: Geocoder, distance: Distance)
    requires FieldsFilled(q) && catalog != [] && ResolveVisitor(q.address, geocode).Some?
    ensures var o := SearchGroups(q, catalog, geocode, distance);
      && multiset(o.inPerson) + multiset(o.online) == multiset(Filter(catalog, q))
      && (forall i :: 0 <= i < |o.online| ==> IsOnline(o.online[i]))
      && (forall i :: 0 <= i < |o.inPerson| ==> !IsOnline(o.inPerson[i]))
      && (|o.inPerson| > 0 ==> forall g :: g in InPersonGroups(Filter(catalog, q)) ==>
            distance(o.origin, o.inPerson[0].coord) <= distance(o.origin, g.coord))
  {
    var o := SearchGroups(q, catalog, geocode, distance);
    var selected := InPersonGroups(Filter(catalog, q));
    SplitIsPartition(Filter(catalog, q));
    forall i | 0 <= i < |o.inPerson|
      ensures !IsOnline(o.inPerson[i])
    {
      assert o.inPerson[i] in multiset(selected);
      var j :| 0 <= j < |selected| && selected[j] == o.inPerson[i];
    }
    SortedHeadIsLeast(selected, o.inPerson, DistanceFrom(o.origin, distance));
    forall g | g in selected && |o.inPerson| > 0
      ensures distance(o.origin, o.inPerson[0].coord) <= distance(o.origin, g.coord)
    {
      var j :| 0 <= j < |selected| && selected[j] == g;
    }
  }

  /** Mode detection ignores case and finds "online" anywhere in the text. */
  lemma OnlineDetectionExamples(g: Group)
    ensures g.mode == "Online" ==> IsOnline(g)
    ensures g.mode == "Híbrido / ONLINE" ==> IsOnline(g)
    ensures g.mode == "Presencial" ==> !IsOnline(g)
  {
    var marker := ToLower(OnlineMarker);
    assert marker == "online";
    if g.mode == "Online" {
      assert OccursAt(ToLower(g.mode), marker, 0);
    }
    if g.mode == "Híbrido / ONLINE" {
      assert OccursAt(ToLower(g.mode), marker, 10);
    }
    if g.mode == "Presencial" {
      var m := ToLower(g.mode);
      assert m == "presencial";
      forall i | 0 <= i <= |m| - |marker|
        ensures !OccursAt(m, marker, i)
      {
        assert m[i] != 'o';
      }
    }
  }

  /** The search handler as written (app.py:263-301), whose `if lat:` (app.py:280) accepts a
      resolved address only when its latitude is non-zero, since Python reads 0.0 as false. */
  function SearchGroupsAsWritten(q: Query, catalog: seq<Group>, geocode: Geocoder, distance: Distance): (o: Outcome)
    ensures o.AddressNotFound? <==>
      (FieldsFilled(q) && catalog != [] &&
       (ResolveVisitor(q.address, geocode).None? || ResolveVisitor(q.address, geocode).value.0.lat == 0.0))
    ensures !o.AddressNotFound? ==> o == SearchGroups(q, catalog, geocode, distance)
  {
    if !FieldsFilled(q) then MissingFields
    else if catalog == [] then EmptyCatalog
    else
      var filtered := Filter(catalog, q);
      match ResolveVisitor(q.address, geocode)
      case None => AddressNotFound
      case Some((origin, reference)) =>
        if origin.lat == 0.0 then AddressNotFound
        else Results(origin, reference, Rank(InPersonGroups(filtered), origin, distance), OnlineGroups(filtered))
  }

  /** An address the geocoder places exactly on the equator is resolved, yet the handler as
      written reports "Endereço não encontrado."; `SearchGroups`, which tests for a resolved
      address instead, shows results for it. */
  lemma EquatorAddressRejectedAsWritten(q: Query, catalog: seq<Group>, distance: Distance)
    requires FieldsFilled(q) && catalog != []
    ensures var geocode := (s: string) => Found(Place(Coord(0.0, -51.07), map[], "Macapá, Amapá"));
      && ResolveVisitor(q.address, geocode).Some?
      && SearchGroupsAsWritten(q, catalog, geocode, distance).AddressNotFound?
      && SearchGroups(q, catalog, geocode, distance).Results?
  {
  }
}

=== FILE: seqs.dfy ===
/** Sequence operations behind the pandas row selections: a boolean-mask selection that keeps
    rows in order, and a sort by a numeric key. */
module Seqs {

  /** `df[mask]`: the elements satisfying `p`, in their original order. */
  function Keep<T>(s: seq<T>, p: T -> bool): (r: seq<T>)
    ensures |r| <= |s|
    ensures forall i :: 0 <= i < |r| ==> p(r[i])
    decreases |s|
  {
    if |s| == 0 then []
    else
      assert s == [s[0]] + s[1..];
      if p(s[0]) then [s[0]] + Keep(s[1..], p) else Keep(s[1..], p)
  }

  /** Selection works piecewise, so it never reorders what it keeps. */
  lemma {:induction false} KeepConcat<T>(a: seq<T>, b: seq<T>, p: T -> bool)
    ensures Keep(a + b, p) == Keep(a, p) + Keep(b, p)
    decreases |a|
  {
    if |a| == 0 {
      assert a + b == b;
    } else {
      assert (a + b)[0] == a[0];
      assert (a + b)[1..] == a[1..] + b;
      KeepConcat(a[1..], b, p);
    }
  }

  /** An element is selected exactly when it occurs in the input and passes the mask. */
  lemma {:induction false} KeepMembership<T>(s: seq<T>, p: T -> bool, x: T)
    ensures x in Keep(s, p) <==> x in s && p(x)
    decreases |s|
  {
    if |s| > 0 {
      KeepMembership(s[1..], p, x);
      assert s == [s[0]] + s[1..];
    }
  }

  /** `KeepMembership` for every element at once. */
  lemma KeepMembershipAll<T>(s: seq<T>, p: T -> bool)
    ensures forall x :: x in Keep(s, p) <==> x in s && p(x)
  {
    forall x
      ensures x in Keep(s, p) <==> x in s && p(x)
    {
      KeepMembership(s, p, x);
    }
  }

  /** Selecting with a mask and with its complement splits a sequence exactly: every element
      goes to one side, none is lost and none is duplicated. */
  lemma {:induction false} KeepSplitsMultiset<T>(s: seq<T>, p: T -> bool, q: T -> bool)
    requires forall i :: 0 <= i < |s| ==> q(s[i]) == !p(s[i])
    ensures multiset(Keep(s, p)) + multiset(Keep(s, q)) == multiset(s)
    decreases |s|
  {
    if |s| > 0 {
      KeepSplitsMultiset(s[1..], p, q);
      assert s == [s[0]] + s[1..];
    }
  }

  /** A mask every element passes keeps the sequence unchanged. */
  lemma {:induction false} KeepAll<T>(s: seq<T>, p: T -> bool)
    requires forall i :: 0 <= i < |s| ==> p(s[i])
    ensures Keep(s, p) == s
    decreases |s|
  {
    if |s| > 0 {
      KeepAll(s[1..], p);
    }
  }

  /** A mask no element passes keeps nothing. */
  lemma {:induction false} KeepNone<T>(s: seq<T>, p: T -> bool)
    requires forall i :: 0 <= i < |s| ==> !p(s[i])
    ensures Keep(s, p) == []
    decreases |s|
  {
    if |s| > 0 {
      KeepNone(s[1..], p);
    }
  }

  predicate SortedBy<T>(s: seq<T>, key: T -> real) {
    forall i, j :: 0 <= i < j < |s| ==> key(s[i]) <= key(s[j])
  }

  /** Putting an element no greater than the head in front keeps a sequence sorted. */
  lemma SortedCons<T>(a: T, s: seq<T>, key: T -> real)
    requires SortedBy(s, key)
    requires |s| > 0 ==> key(a) <= key(s[0])
    ensures SortedBy([a] + s, key)
  {
  }

  /** Places `x` into a sorted sequence. */
  function Insert<T>(x: T, s: seq<T>, key: T -> real): (r: seq<T>)
    requires SortedBy(s, key)
    ensures SortedBy(r, key)
    ensures multiset(r) == multiset(s) + multiset{x}
    ensures |r| == |s| + 1
    ensures r[0] == x || (|s| > 0 && r[0] == s[0])
    decreases |s|
  {
    if |s| == 0 then [x]
    else if key(x) <= key(s[0]) then
      SortedCons(x, s, key);
      [x] + s
    else
      assert s == [s[0]] + s[1..];
      var rest := Insert(x, s[1..], key);
      SortedCons(s[0], rest, key);
      [s[0]] + rest
  }

  /** `sort_values(by=key)`: ascending by the key. pandas' default quicksort is not
      stable, so nothing is promised about the order of rows with equal keys. */
  function SortBy<T>(s: seq<T>, key: T -> real): (r: seq<T>)
    ensures SortedBy(r, key)
    ensures multiset(r) == multiset(s)
    decreases |s|
  {
    if |s| == 0 then []
    else
      assert s == [s[0]] + s[1..];
      Insert(s[0], SortBy(s[1..], key), key)
  }

  /** The first element of a sorted permutation has the least key of the input. */
  lemma SortedHeadIsLeast<T>(s: seq<T>, r: seq<T>, key: T -> real)
    requires SortedBy(r, key) && multiset(r) == multiset(s)
    ensures |r| == |s|
    ensures |r| > 0 ==> forall i :: 0 <= i < |s| ==> key(r[0]) <= key(s[i])
  {
    assert |r| == |multiset(r)| == |s|;
    forall i | 0 <= i < |s|
      ensures key(r[0]) <= key(s[i])
    {
      assert s[i] in multiset(r);
      var j :| 0 <= j < |r| && r[j] == s[i];
    }
  }
}

=== FILE: text.dfy ===
/** Character and string helpers with Python's semantics: ASCII digits, `sep.join`,
    `str.split(sep)`, `str.lower()` on ASCII letters, `str.strip() == ""` and `f"{n}"`. */
module Text {

  predicate IsDigit(c: char) {
    '0' <= c <= '9'
  }

  predicate AllDigits(s: string) {
    forall i :: 0 <= i < |s| ==> IsDigit(s[i])
  }

  /** The characters Python's `str.isspace` accepts, which `str.strip()` removes. */
  predicate IsSpace(c: char) {
    || c == ' ' || '\t' <= c <= '\r' || '\U{1C}' <= c <= '\U{1F}' || c == '\U{85}'
    || c == '\U{A0}' || c == '\U{1680}' || '\U{2000}' <= c <= '\U{200A}'
    || c == '\U{2028}' || c == '\U{2029}' || c == '\U{202F}' || c == '\U{205F}' || c == '\U{3000}'
  }

  /** Where `s.lstrip()` starts when scanning from position i: the first position at or after
      i that does not hold white space, or the end. */
  function FirstNonSpace(s: string, i: nat): (n: nat)
    requires i <= |s|
    ensures i <= n <= |s|
    ensures forall k :: i <= k < n ==> IsSpace(s[k])
    ensures n == |s| || !IsSpace(s[n])
    decreases |s| - i
  {
    if i < |s| && IsSpace(s[i]) then FirstNonSpace(s, i + 1) else i
  }

  /** Where `s.rstrip()` ends when scanning back from position j: just after the last
      position before j that does not hold white space, or 0. */
  function EndOfText(s: string, j: nat): (n: nat)
    requires j <= |s|
    ensures n <= j
    ensures forall k :: n <= k < j ==> IsSpace(s[k])
    ensures n == 0 || !IsSpace(s[n - 1])
    decreases j
  {
    if j > 0 && IsSpace(s[j - 1]) then EndOfText(s, j - 1) else j
  }

  /** How many white-space characters `s.lstrip()` removes. */
  function Lead(s: string): nat {
    FirstNonSpace(s, 0)
  }

  /** `s.strip()`: the slice of `s` left once the white space at both ends is cut off. It
      neither begins nor ends with white space, and everything cut off is white space. */
  function Strip(s: string): (r: string)
    ensures Lead(s) + |r| <= |s| && r == s[Lead(s)..Lead(s) + |r|]
    ensures forall i :: 0 <= i < Lead(s) ==> IsSpace(s[i])
    ensures forall i :: Lead(s) + |r| <= i < |s| ==> IsSpace(s[i])
    ensures r == "" || (!IsSpace(r[0]) && !IsSpace(r[|r| - 1]))
  {
    var a, b := Lead(s), EndOfText(s, |s|);
    assert a < |s| ==> a < b;
    if a < b then s[a..b] else ""
  }

  /** `s.strip() == ""`: the text is white space through and through. */
  function IsBlank(s: string): (b: bool)
    ensures b <==> Strip(s) == ""
  {
    forall i :: 0 <= i < |s| ==> IsSpace(s[i])
  }

  /** `s.startswith(p)`. */
  predicate StartsWith(s: string, p: string) {
    |p| <= |s| && s[..|p|] == p
  }

  /** `p in s` for strings: `p` occurs at some position of `s`. */
  predicate Contains(s: string, p: string) {
    exists i :: 0 <= i <= |s| - |p| && OccursAt(s, p, i)
  }

  predicate OccursAt(s: string, p: string, i: int)
    requires 0 <= i
  {
    i + |p| <= |s| && s[i..i + |p|] == p
  }

  function LowerChar(c: char): char {
    if 'A' <= c <= 'Z' then (c as int + 32) as char else c
  }

  /** `s.lower()` restricted to ASCII letters. */
  function ToLower(s: string): string
  {
    seq(|s|, i requires 0 <= i < |s| => LowerChar(s[i]))
  }

  /** `sep.join(parts)`: it begins with the first part, and each of the gaps between parts
      holds one separator. */
  function Join(parts: seq<string>, sep: string): (r: string)
    ensures |parts| > 0 ==> StartsWith(r, parts[0])
    ensures |parts| > 0 ==> |r| >= |parts[0]| + |sep| * (|parts| - 1)
    decreases |parts|
  {
    if |parts| == 0 then ""
    else if |parts| == 1 then parts[0]
    else
      var rest := Join(parts[1..], sep);
      assert |rest| >= |sep| * (|parts| - 2);
      assert (parts[0] + sep + rest)[..|parts[0]|] == parts[0];
      parts[0] + sep + rest
  }

  /** Appending a part adds the separator and then that part. */
  lemma {:induction false} JoinSnoc(parts: seq<string>, p: string, sep: string)
    requires |parts| > 0
    ensures Join(parts + [p], sep) == Join(parts, sep) + sep + p
    decreases |parts|
  {
    if |parts| == 1 {
      assert parts + [p] == [parts[0], p];
      assert [parts[0], p][1..] == [p];
    } else {
      assert (parts + [p])[1..] == parts[1..] + [p];
      JoinSnoc(parts[1..], p, sep);
    }
  }

  /** `s.split(sep)` for a one-character separator: the pieces between separators,
      empty ones included, so there is always at least one piece. */
  function Split(s: string, sep: char): (r: seq<string>)
    ensures |r| >= 1
    ensures forall k :: 0 <= k < |r| ==> sep !in r[k]
    ensures |r| >= 2 <==> sep in s
    decreases |s|
  {
    if |s| == 0 then [""]
    else
      var rest := Split(s[1..], sep);
      if s[0] == sep then [""] + rest
      else [[s[0]] + rest[0]] + rest[1..]
  }

  /** Splitting and joining back with the same separator gives the original string. */
  lemma {:induction false} JoinSplit(s: string, sep: char)
    ensures Join(Split(s, sep), [sep]) == s
    decreases |s|
  {
    if |s| > 0 {
      var rest := Split(s[1..], sep);
      JoinSplit(s[1..], sep);
      if s[0] == sep {
        assert Split(s, sep) == [""] + rest;
        assert Join([""] + rest, [sep]) == "" + [sep] + Join(rest, [sep]);
        assert s == [s[0]] + s[1..];
      } else {
        assert Split(s, sep) == [[s[0]] + rest[0]] + rest[1..];
        JoinExtendsFirstPart(s[0], rest, [sep]);
        assert s == [s[0]] + s[1..];
      }
    }
  }

  /** Putting a character in front of the first part puts it in front of the joined text. */
  lemma JoinExtendsFirstPart(c: char, parts: seq<string>, sep: string)
    requires |parts| > 0
    ensures Join([[c] + parts[0]] + parts[1..], sep) == [c] + Join(parts, sep)
  {
  }

  /** Splitting a string that starts with a separator-free piece followed by the separator
      yields that piece first and then the pieces of the remainder. */
  lemma {:induction false} SplitAfterSeparator(a: string, sep: char, rest: string)
    requires sep !in a
    ensures Split(a + [sep] + rest, sep) == [a] + Split(rest, sep)
    decreases |a|
  {
    if |a| == 0 {
      assert a + [sep] + rest == [sep] + rest;
      assert ([sep] + rest)[1..] == rest;
    } else {
      SplitAfterSeparator(a[1..], sep, rest);
      assert (a + [sep] + rest)[1..] == a[1..] + [sep] + rest;
      assert [a[0]] + a[1..] == a;
    }
  }

  /** Splitting a separator-free string yields it whole. */
  lemma SplitWithoutSeparator(s: string, sep: char)
    requires sep !in s
    ensures Split(s, sep) == [s]
  {
    var r := Split(s, sep);
    JoinSplit(s, sep);
    assert |r| == 1;
  }

  function DigitChar(d: nat): char
    requires d < 10
  {
    ('0' as int + d) as char
  }

  function DigitValue(c: char): nat
  {
    if IsDigit(c) then (c as int - '0' as int) else 0
  }

  /** `f"{n}"` for a non-negative integer: its decimal digits, most significant first,
      without leading zeros. */
  function DecimalString(n: nat): (r: string)
    ensures |r| >= 1 && AllDigits(r)
    ensures r[0] == '0' ==> n == 0
    decreases n
  {
    if n < 10 then [DigitChar(n)] else DecimalString(n / 10) + [DigitChar(n % 10)]
  }

  /** Reads a string of decimal digits back as a number (Python's `int(s)` on digits). */
  function ParseDecimal(s: string): nat
    decreases |s|
  {
    if |s| == 0 then 0 else 10 * ParseDecimal(s[..|s| - 1]) + DigitValue(s[|s| - 1])
  }

  /** Printing a number and reading it back gives the number. */
  lemma {:induction false} ParseDecimalString(n: nat)
    ensures ParseDecimal(DecimalString(n)) == n
    decreases n
  {
    var r := DecimalString(n);
    if n >= 10 {
      ParseDecimalString(n / 10);
      assert r[..|r| - 1] == DecimalString(n / 10);
    }
  }
}

=== FILE: wrappers.dfy ===
/** The Some/None datatype used for Python's `None` and for pandas' missing cells. */
module Wrappers {

  datatype Option<+T> = None | Some(value: T) {

    /** Returns the value in Some, or `default` for None: Python's `d.get(k, default)`,
        which keeps a present value even when it is empty. */
    function GetOr(default: T): T {
      match this
      case Some(v) => v
      case None => default
    }
  }
}
